=== FILE: README.md ===
# A Dafny model of the Sparkify ETL (`etl.py`)

The ETL loads two kinds of JSON-lines files into a star schema:

- **Song files** from the song catalogue. `process_song_file` turns the first record of a file into one `songs` row and one `artists` row.
- **Activity log files.** `process_log_file` keeps only the song plays (`page == "NextSong"`). Each play's millisecond timestamp becomes a `time` row. The timestamp is read in UTC and gives hour, day, ISO week, month, year and weekday, with Monday = 0. Each play also yields a `users` row. Finally it yields a `songplays` row whose song and artist ids come from the first catalogue match on title, artist and length, or are NULL for both when nothing matches.
- **Driver.** `process_data` walks a directory tree and globs `*.json` in every directory it visits. It then hands the files, in order, to a handler, committing after each file.

The model is written as pure functions over immutable data. The database, the file system and the JSON reader are parameters.

- **Inserts.** The cursor is modelled as the sequence of `INSERT`s a file issues (`Records.Write`).
- **Catalogue lookup.** The `song_select` query is a function from the lookup key to the matching id pairs (`LogFile.Catalog`).
- **File contents.** Reading a file is a function from path to records (`Driver.SongHandler`, `Driver.LogHandler`).
- **Directory tree.** The tree is a value of `Discovery.Entry`.

Modules:

| module | file | models |
|---|---|---|
| `Wrappers` | wrappers.dfy | `Option` and `Result` |
| `Arithmetic` | arithmetic.dfy | uniqueness of quotient and remainder |
| `Calendar` | calendar.dfy | the proleptic Gregorian calendar as day numbers from 1970-01-01 (both directions of the bijection), weekdays, ISO 8601 week numbers |
| `TimeDim` | timedim.dfy | `pd.to_datetime(ts, unit='ms')` and the `.dt` accessors, including pandas' nanosecond range |
| `Records` | records.dfy | log events, song records, the `songs`, `artists`, `users` and `songplays` row types, inserts and the exceptions that escape a handler (the `time` row type is in `TimeDim`) |
| `Seqs` | seqs.dfy | element-wise map |
| `SongFile` | songfile.dfy | `process_song_file` |
| `LogFile` | logfile.dfy | `process_log_file` |
| `Discovery` | discovery.dfy | `os.walk` plus `glob('*.json')` |
| `Driver` | driver.dfy | the `process_data` loop |

The handlers wrap each `cur.execute` and pandas step in `except psycopg2.Error`. That clause does not catch the errors pandas or Python raise, so those errors leave the handler and then `process_data` too. Three such errors are modelled:

- **`EmptyFile`.** A file with no records reads as a frame without columns. Selecting a column then raises `KeyError`: `page` for a log file, the song columns for a song file. Either way nothing is inserted.
- **`OutOfBoundsDatetime`.** A play timestamp outside pandas' nanosecond range makes the conversion of the whole column fail before any insert.
- **`IsADirectory`.** The glob also matches a directory whose name ends in `.json`, and reading that path raises.

In the driver, such an exception ends the run at that file, and the file is not committed.

The conversion is in UTC: timestamp `1541121934796` is 2018-11-02 01:25:34.796, hour 1, a Friday (weekday 4), in ISO week 44 (`TimeDim.TimeRowExample`).

## Model

| member | source | states |
|---|---|---|
| LogFile.Plays | etl.py:68 | the filtered log is no longer than the log, and an event is kept exactly when it is in the log and its page is `NextSong` |
| LogFile.PlaysAppend | etl.py:68 | filtering is row by row: the filter of a concatenation is the concatenation of the filters |
| LogFile.PlaysUnchanged | etl.py:68 | the filter leaves a log unchanged exactly when every event is a play |
| LogFile.NonPlayIgnored | etl.py:68 | for a frame that has its columns: removing a non-play event anywhere in a log leaves the rows of all three tables unchanged |
| LogFile.ResolveIds | etl.py:130-141 | song id and artist id are both present or both NULL; they are present exactly when the catalogue has a match; when present they are the first match's pair |
| LogFile.SameKeySameIds | etl.py:131 | the lookup key is title, artist and length only: plays that agree on them get the same ids |
| LogFile.SongplaysOf | etl.py:127-154 | one songplay row per play, the i-th built from the i-th play |
| LogFile.SongplaysAppend | etl.py:127-154 | songplay rows of a concatenation are the rows of each part, concatenated |
| LogFile.TransformLog | etl.py:68-154 | for a frame that has its columns: the transform succeeds exactly when every play's timestamp is in pandas' range; failure is `OutOfBoundsDatetime`; on success each table gets one row per play |
| LogFile.TransformPlays | etl.py:75-154 | same as `TransformLog`, over an already filtered list of plays |
| LogFile.TransformPlaysAt | etl.py:95-154 | the i-th time, user and songplay rows all come from the i-th play |
| LogFile.TransformLogSingle | etl.py:68-154 | one event: an in-range play gives exactly one row per table; an out-of-range play fails; any other event gives no rows |
| LogFile.TransformLogAppend | etl.py:68-154 | for frames that have their columns: the transform of a concatenation succeeds iff both parts succeed, and each table's rows are the parts' rows in log order |
| LogFile.UserOfColumns | etl.py:103-106 | two plays give the same `users` row if and only if they agree on user id, first name, last name, gender and level |
| LogFile.SongplayOfColumns | etl.py:145 | two plays give the same `songplays` row if and only if they agree on timestamp, user id, level, session, location and user agent and get the same catalogue ids |
| LogFile.RowsAgree | etl.py:145 | the i-th songplay row keeps the raw millisecond timestamp, and the i-th time row holds its conversion, which converts back to that timestamp; user id and level agree with the i-th user row |
| LogFile.LogWrites | etl.py:95-154 | inserts go table by table: all time rows, then all user rows, then all songplay rows, each at its own position |
| LogFile.ProcessLogFile | etl.py:52-154 | the file fails exactly when it has no records (`EmptyFile`) or some play's timestamp is out of range (`OutOfBoundsDatetime`); otherwise there are 3n inserts (n = number of plays): n time, then n user, then n songplay inserts |
| LogFile.ProcessLogFileRows | etl.py:95-154 | the i-th play's time, user and songplay inserts are at positions i, n + i and 2n + i |
| TimeDim.ToDateTime | etl.py:75 | the converted timestamp is a valid UTC date and time, and it converts back to the same millisecond count (negative counts go back from the epoch) |
| TimeDim.ToDateTimeInverse | etl.py:75 | converting a valid date and time to milliseconds and back returns it |
| TimeDim.TimeRowOf | etl.py:75-90 | the hour, day, month and week fields are in range and weekday is in 0..6; the start time converts back to `ts`; the hour-long interval of the row's date and hour contains `ts`; weekday and week are those of the row's date |
| TimeDim.TimeRowOfInterval | etl.py:75-82 | conversely, any valid date and hour whose interval contains `ts` are the row's, so the row is the only consistent one |
| TimeDim.TimeRowOfDateTime | etl.py:82 | the row of a timestamp is read off the date and time it converts to |
| TimeDim.TimeRowExample | etl.py:75-87 | timestamp 1541121934796 gives 2018-11-02 01:25:34.796, hour 1, day 2, ISO week 44, month 11, year 2018, weekday 4 |
| Calendar.CivilFromDays | etl.py:75 | the date of a day number is valid and has that day number |
| Calendar.DaysFromCivilInverse | etl.py:75 | every valid date is recovered from its day number, so date and day number are in bijection |
| Calendar.DaysFromCivilNext | etl.py:75 | the day after a date has the next day number |
| Calendar.EpochIsDayZero | etl.py:75 | 1970-01-01 is day 0 and a Thursday (weekday 3) |
| Calendar.YearLength | etl.py:82 | a calendar year has 365 days, or 366 in a leap year |
| Calendar.DayOfYearBounds | etl.py:82 | a date's day of the year is below the length of its year |
| Calendar.CivilYearIsUnique | etl.py:82 | the year of day z is the one year whose first day is at or before z and whose successor's first day is after z |
| Calendar.Weekday | etl.py:82 | the day of the week is in 0..6 |
| Calendar.WeekdayNext | etl.py:82 | each next date moves the weekday one on, with Sunday (6) wrapping to Monday (0) |
| Calendar.IsoWeek | etl.py:82 | the ISO week number is in 1..53 |
| Calendar.IsoWeekOfThursday | etl.py:82 | the ISO week and year are read off the Thursday of the Monday-to-Sunday week |
| Calendar.IsoWeekOfJanuaryFourth | etl.py:82 | 4 January is always in week 1 of its own year |
| Calendar.IsoWeekWithinWeek | etl.py:82 | from Monday to Sunday the week number and ISO year do not change |
| Calendar.IsoWeekNextWeek | etl.py:82 | from Sunday to Monday the week number goes up by one, or restarts at 1 when the ISO year goes up by one |
| Calendar.WeekLater | etl.py:82 | a date seven days later is seven days further into the same year, or in the first week of the next year |
| SongFile.ProcessSongFile | etl.py:8-49 | a file with no records fails with `EmptyFile` and inserts nothing; otherwise exactly a song insert, then an artist insert, with the same artist id |
| SongFile.FirstRecordOnly | etl.py:25-40 | only the first record is read: records after it change nothing |
| SongFile.SongArtistSplit | etl.py:25-40 | the song and artist projections lose nothing but `num_songs`: a song row, an artist row and a count rejoin to a record exactly when they are its projections and its count |
| SongFile.ProcessSongFileRoundTrip | etl.py:25-40 | joining the two inserted rows on the artist id rebuilds the file's first record: no field but `num_songs` is lost |
| Discovery.Glob | etl.py:164 | every globbed path is one level below the directory and matches `*.json`; every matching entry of the directory is globbed |
| Discovery.WalkSound | etl.py:163-166 | every collected path is an entry below the root and matches `*.json` |
| Discovery.WalkComplete | etl.py:163-166 | every matching entry anywhere below the root is collected |
| Discovery.WalkEmpty | etl.py:163-169 | the file count is 0 exactly when no entry of the tree matches |
| Discovery.WalkDistinct | etl.py:163-166 | with names unique per directory, no path is collected twice |
| Driver.HandleFiles | etl.py:169-176 | the announced total is the number of files; file i is handled at step i (progress i, counted from 1) with its own successful inserts; the commits are those inserts in file order; the run completes iff every file was handled, otherwise it stops at the first file whose handler raised |
| Driver.HandlersOnPath | etl.py:164-174 | a collected path that names a directory makes either handler raise `IsADirectory`; any other path is handled as that file's records |
| Driver.ProcessData | etl.py:157-176 | `HandleFiles` applied to the files the walk collects |

## Left out

- `main` and `create_tables.py`: connecting, creating tables and choosing the data directories are outside the transform.
- SQL semantics: the inserts are recorded in issue order. What the database does with a duplicate key (the `ON CONFLICT` clauses) is not modelled.
- Database errors: every `cur.execute` sits in `except psycopg2.Error`, but `cur.fetchone()` at etl.py:136 does not. After a failed `song_select`, or after any earlier failed statement of the file (which aborts the open transaction, so the lookup fails too), `fetchone()` raises and ends the run with the file uncommitted. The model assumes every statement, the catalogue lookup included, succeeds.
- The catalogue lookup is a fixed function of the key. Songs inserted earlier in the same run are not seen by it.
- JSON parsing (`pd.read_json`): a file is given as its sequence of records. A non-empty file missing a column, and malformed lines, are not modelled.
- Floating-point values (length, duration, coordinates) are kept as 64-bit patterns and compared by equality. Float arithmetic is not used by the ETL.
- Console output (`print` of the file count and the progress line): the count and the progress numbers are modelled, the text is not.
- `os.path.abspath` and the actual order in which the file system lists a directory: paths are component sequences, and the listing order is part of the input tree.
- Symbolic links, unreadable directories and a root that is not a directory are not modelled.
- `ts` is modelled as an integer. Float millisecond values, which the conversion also accepts, are not modelled.
- Time zones: the conversion is UTC, as pandas does for naive integer timestamps.
- Discovery.Walk: the directory path from `os.walk` is passed to `glob` unescaped, so `*`, `?` and `[` in a directory's name act as a pattern. The model globs every directory literally. For trees without such names it is exact; otherwise the source may miss files or collect a sibling's files too.
- Discovery.WalkComplete: holds of the source only when no directory on the way (the root included) has `*`, `?` or `[` in its name; a directory `a[1]` has its files missed.
- Discovery.WalkEmpty: holds of the source only for directory names without `*`, `?` or `[`; with a directory `a[1]` the source can count 0 files while a matching entry exists.
- Discovery.WalkDistinct: holds of the source only for directory names without `*`, `?` or `[`; a directory `x*` makes the glob also match a sibling `xy`, whose files are then collected twice.
- Discovery.Glob: the directory part of the pattern is taken literally; in the source a directory name containing `*`, `?` or `[` is itself a pattern. Both clauses of the contract therefore hold of the source only for names without them: a directory `x*` also globs a sibling's `xy/a.json`, which is not one level below `x*`, and a directory `a[1]` globs none of its own files.
- LogFile.TransformLog: `ts` is taken as an unbounded integer, while the JSON reader yields a 64-bit integer column. Its int64 value -2^63 is pandas' "not a time" marker: the conversion turns it into NaT without raising, which is not modelled (the model fails the file on it as out of range).
- LogFile.TransformPlays: as for `TransformLog`, a play whose `ts` is the int64 value -2^63 converts to NaT in the source and is not modelled.
- LogFile.TransformLogSingle: as for `TransformLog`, "an out-of-range play fails" does not hold in the source for `ts` equal to -2^63, which becomes NaT.
- LogFile.ProcessLogFile: as for `TransformLog`, a play whose `ts` is -2^63 becomes NaT in the source and the file carries on; the model fails the file.
- pandas before 2.0 is assumed, where `Series.dt.week` is the ISO 8601 week. From pandas 2.0 `dt.week` no longer exists, and etl.py:82 raises `AttributeError` on every log file, ending the run.

=== FILE: arithmetic.dfy ===
/** Small facts about Euclidean division that keep the calendar proofs cheap. */
module Arithmetic {

  /** Quotient and remainder are unique. */
  lemma DivModUnique(x: int, m: int, q: int, r: int)
    requires 0 < m && x == m * q + r && 0 <= r < m
    ensures x / m == q && x % m == r
  {
    var q', r' := x / m, x % m;
    assert x == m * q' + r';
    if q' < q {
      assert m * q - m * q' == m * (q - q');
      MulAtLeast(m, q - q');
    } else if q' > q {
      assert m * q' - m * q == m * (q' - q);
      MulAtLeast(m, q' - q);
    }
  }

  lemma MulAtLeast(m: int, k: int)
    requires 0 < m && 1 <= k
    ensures m * k >= m
  {
  }
}

=== FILE: calendar.dfy ===
/** The proleptic Gregorian calendar, counted in days from 1970-01-01.
    This is the integer arithmetic behind pandas' `Series.dt` accessors
    (`year`, `month`, `day`, `week`, `dayofweek`) that the log transform
    reads off each converted timestamp. */
module Calendar {

  import opened Arithmetic

  /** A calendar date; only `ValidDate` values name a real day. */
  datatype Date = Date(year: int, month: int, day: int)

  predicate IsLeapYear(y: int) {
    y % 4 == 0 && (y % 100 != 0 || y % 400 == 0)
  }

  function DaysInMonth(y: int, m: int): int
    requires 1 <= m <= 12
  {
    if m == 2 then (if IsLeapYear(y) then 29 else 28)
    else if m == 4 || m == 6 || m == 9 || m == 11 then 30
    else 31
  }

  predicate ValidDate(d: Date) {
    1 <= d.month <= 12 && 1 <= d.day <= DaysInMonth(d.year, d.month)
  }

  /** Days in a 400-year era of the Gregorian calendar. */
  const DaysPerEra: int := 146097
  /** Days from 0000-03-01 to 1970-01-01. */
  const EpochShift: int := 719468

  /** First day, counted from 1 March, of the March-based month `mp`
      (0 = March, ..., 10 = January, 11 = February). */
  function MonthStart(mp: int): int {
    (153 * mp + 2) / 5
  }

  /** The March-based month of a civil month. */
  function MarchMonth(m: int): int {
    if m > 2 then m - 3 else m + 9
  }

  /** The year, counted from 1 March, that `d` falls in: January and
      February belong to the previous March-based year. */
  function MarchYear(d: Date): int {
    if d.month <= 2 then d.year - 1 else d.year
  }

  /** Days from 1 March of year 0 of an era to 1 March of its year `yoe`. */
  function EraYearStart(yoe: int): int {
    365 * yoe + yoe / 4 - yoe / 100
  }

  /** Days from 0000-03-01 to 1 March of year `y`: 365 a year plus one
      for every fourth year, less the centuries, plus every fourth century. */
  function MarchYearStart(y: int): int {
    365 * y + y / 4 - y / 100 + y / 400
  }

  /** Days from 1970-01-01 to `d` (negative before it). The year is counted
      from 1 March so that the leap day is the last day of its year. */
  function DaysFromCivil(d: Date): int {
    MarchYearStart(MarchYear(d)) + MonthStart(MarchMonth(d.month)) + d.day - 1 - EpochShift
  }

  /** Year `yoe` of era `era` starts `era` eras plus `EraYearStart(yoe)`
      days after 0000-03-01. */
  lemma MarchYearStartOfEra(y: int, era: int, yoe: int)
    requires 0 <= yoe < 400 && y == 400 * era + yoe
    ensures MarchYearStart(y) == era * DaysPerEra + EraYearStart(yoe)
  {
    DivModUnique(y, 4, 100 * era + yoe / 4, yoe % 4);
    DivModUnique(y, 100, 4 * era + yoe / 100, yoe % 100);
    DivModUnique(y, 400, era, yoe);
  }

  /** Splits a day of a 400-year era into (year of the era, day of that
      March-based year): centuries of 36524 days, four-year cycles of 1461
      days, then years of 365 days, where the last century and the last year
      of a cycle each absorb the one extra leap day. */
  function SplitEra(doe: int): (r: (int, int))
    requires 0 <= doe < DaysPerEra
    ensures 0 <= r.0 < 400 && 0 <= r.1 <= 365
    ensures doe == EraYearStart(r.0) + r.1
    ensures r.1 == 365 ==> IsLeapYear(r.0 + 1)
  {
    var (c, doc) := CappedSplit(doe, 36524, 3);
    var (q, doq) := CappedSplit(doc, 1461, 24);
    var (yq, doy) := CappedSplit(doq, 365, 3);
    EraYearStartOfParts(c, q, yq);
    LeapOfParts(c, q);
    (100 * c + 4 * q + yq, doy)
  }

  /** Splits `x` into `k` whole periods of length `m` and a rest, where the
      last period `cap` may absorb one extra day. */
  function CappedSplit(x: int, m: int, cap: nat): (r: (int, int))
    requires 0 < m && 0 <= x <= m * (cap + 1)
    ensures 0 <= r.0 <= cap && 0 <= r.1 && x == m * r.0 + r.1
    ensures r.1 < m || (r.0 == cap && r.1 == m)
  {
    DivAtMost(x, m, cap + 1);
    var k := if x / m == cap + 1 then cap else x / m;
    (k, x - m * k)
  }

  /** A number of at most `n` periods holds at most `n` whole periods. */
  lemma DivAtMost(x: int, m: int, n: int)
    requires 0 < m && 0 <= x <= m * n
    ensures 0 <= x / m <= n
    ensures x / m == n ==> x == m * n
  {
    var q, r := x / m, x % m;
    if q > n {
      assert m * q - m * n == m * (q - n);
      MulAtLeast(m, q - n);
    }
  }

  /** Multiplying by a positive number keeps the order. */
  lemma MulMono(m: int, a: int, b: int)
    requires 0 < m && a <= b
    ensures m * a <= m * b
  {
    if a < b {
      assert m * b - m * a == m * (b - a);
      MulAtLeast(m, b - a);
    }
  }

  /** Whole periods and a rest in range split back to themselves. */
  lemma CappedSplitInverse(x: int, m: int, cap: nat, k: int, rest: int)
    requires 0 < m && 0 <= k <= cap && 0 <= rest && x == m * k + rest
    requires rest < m || (k == cap && rest == m)
    ensures 0 <= x <= m * (cap + 1)
    ensures CappedSplit(x, m, cap) == (k, rest)
  {
    if rest < m {
      MulMono(m, k + 1, cap + 1);
      DivModUnique(x, m, k, rest);
    } else {
      DivModUnique(x, m, k + 1, 0);
    }
  }

  /** Year `100 * c + 4 * q + yq` of an era starts after `c` centuries of
      36524 days, `q` four-year cycles of 1461 days and `yq` years. */
  lemma EraYearStartOfParts(c: int, q: int, yq: int)
    requires 0 <= c <= 3 && 0 <= q <= 24 && 0 <= yq <= 3
    ensures EraYearStart(100 * c + 4 * q + yq) == 36524 * c + 1461 * q + 365 * yq
  {
    var yoe := 100 * c + 4 * q + yq;
    DivModUnique(yoe, 4, 25 * c + q, yq);
    DivModUnique(yoe, 100, c, 4 * q + yq);
  }

  /** The year after the last year of a four-year cycle is a leap year,
      except after the last cycle of the first three centuries. */
  lemma LeapOfParts(c: int, q: int)
    requires 0 <= c <= 3 && 0 <= q <= 24
    ensures IsLeapYear(100 * c + 4 * q + 4) <==> (q < 24 || c == 3)
  {
    var n := 100 * c + 4 * q + 4;
    DivModUnique(n, 4, 25 * c + q + 1, 0);
    if q < 24 {
      DivModUnique(n, 100, c, 4 * q + 4);
    } else if c < 3 {
      DivModUnique(n, 100, c + 1, 0);
      DivModUnique(n, 400, 0, n);
    }
  }

  /** Splits a day of a March-based year into (March-based month, day). */
  function SplitYear(doy: int): (r: (int, int))
    requires 0 <= doy <= 365
    ensures 0 <= r.0 < 12 && 1 <= r.1
    ensures MonthStart(r.0) + r.1 - 1 == doy
    ensures r.0 < 11 ==> r.1 <= MonthStart(r.0 + 1) - MonthStart(r.0)
    ensures r.0 == 11 ==> (r.1 <= 29 && (r.1 == 29 <==> doy == 365))
  {
    var mp := (5 * doy + 2) / 153;
    (mp, doy - MonthStart(mp) + 1)
  }

  /** The date `z` days after 1970-01-01. */
  function CivilFromDays(z: int): (r: Date)
    ensures ValidDate(r)
    ensures DaysFromCivil(r) == z
  {
    EraDate((z + EpochShift) / DaysPerEra, (z + EpochShift) % DaysPerEra)
  }

  /** The date on day `doe` of 400-year era `era` (eras start on 1 March of
      a year divisible by 400; era 0 starts on 0000-03-01). */
  function EraDate(era: int, doe: int): (r: Date)
    requires 0 <= doe < DaysPerEra
    ensures ValidDate(r)
    ensures DaysFromCivil(r) == era * DaysPerEra + doe - EpochShift
  {
    var ye := SplitEra(doe);
    var md := SplitYear(ye.1);
    var month := if md.0 < 10 then md.0 + 3 else md.0 - 9;
    var year := era * 400 + ye.0 + (if month <= 2 then 1 else 0);
    LeapYearPeriodic(ye.0 + 1, era);
    MarchYearStartOfEra(era * 400 + ye.0, era, ye.0);
    Date(year, month, md.1)
  }

  /** Leap years repeat every 400 years. */
  lemma LeapYearPeriodic(y: int, k: int)
    ensures IsLeapYear(y + 400 * k) <==> IsLeapYear(y)
  {
    var x := y + 400 * k;
    DivModUnique(x, 4, y / 4 + 100 * k, y % 4);
    DivModUnique(x, 100, y / 100 + 4 * k, y % 100);
    DivModUnique(x, 400, y / 400 + k, y % 400);
  }

  /** A day inside March-based month `mp` splits back to `mp` and that day. */
  lemma SplitYearInverse(mp: int, day: int)
    requires 0 <= mp < 12 && 1 <= day
    requires mp < 11 ==> day <= MonthStart(mp + 1) - MonthStart(mp)
    requires mp == 11 ==> day <= 29
    ensures SplitYear(MonthStart(mp) + day - 1) == (mp, day)
  {
    var doy := MonthStart(mp) + day - 1;
    assert 5 * MonthStart(mp) >= 153 * mp - 2;
    if mp < 11 {
      assert 5 * MonthStart(mp + 1) <= 153 * (mp + 1) + 2;
    }
    DivModUnique(5 * doy + 2, 153, mp, 5 * doy + 2 - 153 * mp);
  }

  /** A day of year `yoe` of an era splits back to that year and day. */
  lemma SplitEraInverse(yoe: int, doy: int)
    requires 0 <= yoe < 400 && 0 <= doy <= 365
    requires doy == 365 ==> IsLeapYear(yoe + 1)
    ensures 0 <= EraYearStart(yoe) + doy < DaysPerEra
    ensures SplitEra(EraYearStart(yoe) + doy) == (yoe, doy)
  {
    var c, q, yq := yoe / 100, (yoe % 100) / 4, (yoe % 100) % 4;
    assert yoe == 100 * c + 4 * q + yq;
    SplitEraOfYear(c, q, yq, doy);
  }

  /** `SplitEraInverse` for a year given as century, four-year cycle and
      year of the cycle. */
  lemma SplitEraOfYear(c: int, q: int, yq: int, doy: int)
    requires 0 <= c <= 3 && 0 <= q <= 24 && 0 <= yq <= 3 && 0 <= doy <= 365
    requires doy == 365 ==> IsLeapYear(100 * c + 4 * q + yq + 1)
    ensures 0 <= EraYearStart(100 * c + 4 * q + yq) + doy < DaysPerEra
    ensures SplitEra(EraYearStart(100 * c + 4 * q + yq) + doy) == (100 * c + 4 * q + yq, doy)
  {
    EraYearStartOfParts(c, q, yq);
    if doy == 365 {
      LeapYearOfParts(c, q, yq);
    }
    var doq := 365 * yq + doy;
    var doc := 1461 * q + doq;
    var doe := 36524 * c + doc;
    CappedSplitInverse(doq, 365, 3, yq, doy);
    CappedSplitInverse(doc, 1461, 24, q, doq);
    CappedSplitInverse(doe, 36524, 3, c, doc);
    SplitEraOfParts(doe, c, doc, q, doq, yq, doy);
  }

  /** Only the last year of a four-year cycle can be followed by a leap
      year, and after the last cycle of a century only in the fourth one. */
  lemma LeapYearOfParts(c: int, q: int, yq: int)
    requires 0 <= c <= 3 && 0 <= q <= 24 && 0 <= yq <= 3
    requires IsLeapYear(100 * c + 4 * q + yq + 1)
    ensures yq == 3 && (q < 24 || c == 3)
  {
    if yq < 3 {
      DivModUnique(100 * c + 4 * q + yq + 1, 4, 25 * c + q, yq + 1);
    }
    LeapOfParts(c, q);
  }

  /** `SplitEra` assembles its result from the three capped splits. */
  lemma SplitEraOfParts(doe: int, c: int, doc: int, q: int, doq: int, yq: int, doy: int)
    requires 0 <= doe < DaysPerEra
    requires CappedSplit(doe, 36524, 3) == (c, doc)
    requires CappedSplit(doc, 1461, 24) == (q, doq)
    requires CappedSplit(doq, 365, 3) == (yq, doy)
    ensures SplitEra(doe) == (100 * c + 4 * q + yq, doy)
  {
  }

  /** Days-from-epoch is one-to-one on real dates: the conversion back
      recovers the date. */
  lemma DaysFromCivilInverse(d: Date)
    requires ValidDate(d)
    ensures CivilFromDays(DaysFromCivil(d)) == d
  {
    var era, yoe := MarchYear(d) / 400, MarchYear(d) % 400;
    var doy := MonthStart(MarchMonth(d.month)) + d.day - 1;
    var doe := EraYearStart(yoe) + doy;
    MarchDayOfYear(d);
    MarchYearStartOfEra(MarchYear(d), era, yoe);
    EraDateOfYearParts(d, era, yoe, doy, doe);
    CivilFromDaysOnEra(DaysFromCivil(d), era, doe);
  }

  /** A date is rebuilt by `EraDate` from its era and the day of that era
      on which it falls, given as the year of the era and the day of the
      March-based year. */
  lemma EraDateOfYearParts(d: Date, era: int, yoe: int, doy: int, doe: int)
    requires 1 <= d.month <= 12
    requires MarchYear(d) == era * 400 + yoe && 0 <= yoe < 400
    requires doy == MonthStart(MarchMonth(d.month)) + d.day - 1 && 0 <= doy <= 365
    requires doy == 365 ==> IsLeapYear(yoe + 1)
    requires SplitYear(doy) == (MarchMonth(d.month), d.day)
    requires doe == EraYearStart(yoe) + doy
    ensures 0 <= doe < DaysPerEra
    ensures EraDate(era, doe) == d
  {
    SplitEraInverse(yoe, doy);
    EraDateParts(era, doe, yoe, doy);
  }

  /** The day of its March-based year that a real date falls on, and the
      split of that day back into month and day. */
  lemma MarchDayOfYear(d: Date)
    requires ValidDate(d)
    ensures var doy := MonthStart(MarchMonth(d.month)) + d.day - 1;
      && 0 <= doy <= 365
      && (doy == 365 ==> IsLeapYear(MarchYear(d) % 400 + 1))
      && SplitYear(doy) == (MarchMonth(d.month), d.day)
  {
    var mp := MarchMonth(d.month);
    SplitYearInverse(mp, d.day);
    if MonthStart(mp) + d.day - 1 == 365 {
      LeapYearPeriodic(MarchYear(d) % 400 + 1, MarchYear(d) / 400);
    }
  }

  /** `EraDate` assembles the date from the year and day-of-year split. */
  lemma EraDateParts(era: int, doe: int, yoe: int, doy: int)
    requires 0 <= doe < DaysPerEra
    requires SplitEra(doe) == (yoe, doy)
    ensures 0 <= doy <= 365
    ensures var md := SplitYear(doy);
      EraDate(era, doe)
      == Date(era * 400 + yoe + (if md.0 >= 10 then 1 else 0),
              if md.0 < 10 then md.0 + 3 else md.0 - 9, md.1)
  {
  }

  /** Day `doe` of era `era` converts to the date `EraDate` builds. */
  lemma CivilFromDaysOnEra(z: int, era: int, doe: int)
    requires 0 <= doe < DaysPerEra && z == era * DaysPerEra + doe - EpochShift
    ensures CivilFromDays(z) == EraDate(era, doe)
  {
    DivModUnique(z + EpochShift, DaysPerEra, era, doe);
    assert (z + EpochShift) / DaysPerEra == era && (z + EpochShift) % DaysPerEra == doe;
  }

  // ----- The day count is the Gregorian calendar's -----

  /** The day after `d` in the Gregorian calendar. */
  function NextDate(d: Date): (r: Date)
    requires ValidDate(d)
    ensures ValidDate(r)
  {
    if d.day < DaysInMonth(d.year, d.month) then Date(d.year, d.month, d.day + 1)
    else if d.month < 12 then Date(d.year, d.month + 1, 1)
    else Date(d.year + 1, 1, 1)
  }

  function DaysInYear(y: int): int {
    if IsLeapYear(y) then 366 else 365
  }

  /** Two dates of the same March-based year are as many days apart as
      their offsets from 1 March. */
  lemma SameMarchYear(a: Date, b: Date)
    requires MarchYear(a) == MarchYear(b)
    ensures DaysFromCivil(a) - DaysFromCivil(b)
         == (MonthStart(MarchMonth(a.month)) + a.day) - (MonthStart(MarchMonth(b.month)) + b.day)
  {
  }

  /** Consecutive March-based years start 365 or 366 days apart. */
  lemma MarchYearStartStep(y: int)
    ensures MarchYearStart(y + 1) == MarchYearStart(y) + DaysInYear(y + 1)
  {
    QuotientStep(y, 4);
    QuotientStep(y, 100);
    QuotientStep(y, 400);
    DivisorChain(y + 1);
  }

  /** The quotient by `m` goes up by one exactly at multiples of `m`. */
  lemma QuotientStep(y: int, m: int)
    requires 0 < m
    ensures (y + 1) / m == y / m + (if (y + 1) % m == 0 then 1 else 0)
  {
    if y % m < m - 1 {
      DivModUnique(y + 1, m, y / m, y % m + 1);
    } else {
      DivModUnique(y + 1, m, y / m + 1, 0);
    }
  }

  /** Multiples of 400 are multiples of 100, which are multiples of 4. */
  lemma DivisorChain(x: int)
    ensures x % 400 == 0 ==> x % 100 == 0
    ensures x % 100 == 0 ==> x % 4 == 0
  {
    if x % 400 == 0 {
      DivModUnique(x, 100, 4 * (x / 400), 0);
    }
    if x % 100 == 0 {
      DivModUnique(x, 4, 25 * (x / 100), 0);
    }
  }

  /** From 1 March of `y` to 1 March of `y + 1` there are as many days as in
      the calendar year `y + 1`, whose February ends in between. */
  lemma MarchFirstStep(y: int)
    ensures DaysFromCivil(Date(y + 1, 3, 1)) == DaysFromCivil(Date(y, 3, 1)) + DaysInYear(y + 1)
  {
    MarchYearStartStep(y);
  }

  /** Consecutive dates are consecutive day numbers. With `DaysFromCivil(1970-01-01) == 0`
      (`EpochIsDayZero`) this pins `DaysFromCivil` down as the Gregorian day count. */
  lemma DaysFromCivilNext(d: Date)
    requires ValidDate(d)
    ensures DaysFromCivil(NextDate(d)) == DaysFromCivil(d) + 1
  {
    if d.day < DaysInMonth(d.year, d.month) {
      SameMarchYear(NextDate(d), d);
    } else if d.month == 2 {
      MarchFirstStep(d.year - 1);
      SameMarchYear(d, Date(d.year - 1, 3, 1));
    } else {
      SameMarchYear(NextDate(d), d);
    }
  }

  lemma EpochIsDayZero()
    ensures DaysFromCivil(Date(1970, 1, 1)) == 0
    ensures Weekday(DaysFromCivil(Date(1970, 1, 1))) == 3
  {
    assert MarchYear(Date(1970, 1, 1)) == 1969;
    assert MarchYearStart(1969) == 719162;
  }

  /** 1 January of year `y`, as a day number. */
  function YearStart(y: int): int {
    DaysFromCivil(Date(y, 1, 1))
  }

  /** A calendar year has 365 days, or 366 in a leap year. */
  lemma YearLength(y: int)
    ensures YearStart(y + 1) == YearStart(y) + DaysInYear(y)
  {
    MarchFirstStep(y - 1);
    SameMarchYear(Date(y + 1, 1, 1), Date(y, 3, 1));
    SameMarchYear(Date(y, 1, 1), Date(y - 1, 3, 1));
  }

  /** Days from 1 January of `d`'s year to `d` (0 on 1 January). */
  function DayOfYear(d: Date): int {
    DaysFromCivil(d) - YearStart(d.year)
  }

  lemma DayOfYearBounds(d: Date)
    requires ValidDate(d)
    ensures 0 <= DayOfYear(d) < DaysInYear(d.year)
  {
    if d.month <= 2 {
      SameMarchYear(d, Date(d.year, 1, 1));
    } else {
      MarchFirstStep(d.year - 1);
      SameMarchYear(d, Date(d.year, 3, 1));
      SameMarchYear(Date(d.year, 1, 1), Date(d.year - 1, 3, 1));
    }
  }

  /** Later years start at least a year's worth of days later. */
  lemma {:induction false} YearStartMonotone(a: int, b: int)
    requires a < b
    ensures YearStart(a) + 365 <= YearStart(b)
    decreases b - a
  {
    YearLength(b - 1);
    if a < b - 1 {
      YearStartMonotone(a, b - 1);
    }
  }

  /** Day `z` lies in the year of its date. */
  lemma CivilYearBounds(z: int)
    ensures YearStart(CivilFromDays(z).year) <= z < YearStart(CivilFromDays(z).year + 1)
  {
    InYear(CivilFromDays(z));
  }

  /** A real date lies between the first days of its year and the next. */
  lemma InYear(d: Date)
    requires ValidDate(d)
    ensures YearStart(d.year) <= DaysFromCivil(d) < YearStart(d.year + 1)
  {
    DayOfYearBounds(d);
    YearLength(d.year);
  }

  /** The year of day `z` is the one year whose first day is at or before `z`
      and whose successor's first day is after it. */
  lemma CivilYearIsUnique(z: int, y: int)
    requires YearStart(y) <= z < YearStart(y + 1)
    ensures CivilFromDays(z).year == y
  {
    CivilYearBounds(z);
    YearOfDay(z, y, CivilFromDays(z).year);
  }

  /** At most one year holds a given day. */
  lemma YearOfDay(z: int, y: int, y': int)
    requires YearStart(y) <= z < YearStart(y + 1)
    requires YearStart(y') <= z < YearStart(y' + 1)
    ensures y' == y
  {
    if y' + 1 < y {
      YearStartMonotone(y' + 1, y);
    } else if y + 1 < y' {
      YearStartMonotone(y + 1, y');
    }
  }

  // ----- Weekdays and ISO 8601 weeks -----

  /** Day of the week of day `z`, Monday = 0 ... Sunday = 6; day 0,
      1970-01-01, was a Thursday. */
  function Weekday(z: int): (r: int)
    ensures 0 <= r < 7
  {
    (z + 3) % 7
  }

  /** The weekday advances by one, Sunday wrapping to Monday, from each date
      to the next. */
  lemma WeekdayNext(d: Date)
    requires ValidDate(d)
    ensures Weekday(DaysFromCivil(NextDate(d))) == (Weekday(DaysFromCivil(d)) + 1) % 7
  {
    var z := DaysFromCivil(d);
    assert DaysFromCivil(NextDate(d)) == z + 1 by {
      DaysFromCivilNext(d);
    }
    WeekdaySucc(z);
  }

  lemma WeekdaySucc(z: int)
    ensures Weekday(z + 1) == (Weekday(z) + 1) % 7
  {
  }

  /** The Thursday of the Monday-to-Sunday week that holds day `z`. */
  function WeekThursday(z: int): int {
    z - Weekday(z) + 3
  }

  /** The ISO 8601 week-numbering year of day `z`: the calendar year of its
      week's Thursday. */
  function IsoYear(z: int): int {
    CivilFromDays(WeekThursday(z)).year
  }

  /** The ISO 8601 week number of day `z`: weeks run Monday to Sunday and
      belong to the year that holds their Thursday, so week 1 is the week of
      that year's first Thursday. */
  function IsoWeek(z: int): (w: int)
    ensures 1 <= w <= 53
  {
    var t := CivilFromDays(WeekThursday(z));
    DayOfYearBounds(t);
    DayOfYear(t) / 7 + 1
  }

  /** The ISO week and year of day `z`, read off the date of its week's
      Thursday. */
  lemma IsoWeekOfThursday(z: int, thursday: Date)
    requires ValidDate(thursday) && DaysFromCivil(thursday) == WeekThursday(z)
    ensures IsoWeek(z) == DayOfYear(thursday) / 7 + 1
    ensures IsoYear(z) == thursday.year
  {
    DaysFromCivilInverse(thursday);
  }

  /** 4 January always lies in week 1. */
  lemma IsoWeekOfJanuaryFourth(y: int)
    ensures IsoWeek(DaysFromCivil(Date(y, 1, 4))) == 1
    ensures IsoYear(DaysFromCivil(Date(y, 1, 4))) == y
  {
    var z := DaysFromCivil(Date(y, 1, 4));
    SameMarchYear(Date(y, 1, 4), Date(y, 1, 1));
    YearLength(y);
    var t := WeekThursday(z);
    assert YearStart(y) <= t <= YearStart(y) + 6;
    CivilYearIsUnique(t, y);
  }

  /** From Monday to Sunday the week number does not change. */
  lemma IsoWeekWithinWeek(z: int)
    requires Weekday(z) < 6
    ensures IsoWeek(z + 1) == IsoWeek(z) && IsoYear(z + 1) == IsoYear(z)
  {
    assert WeekThursday(z + 1) == WeekThursday(z);
  }

  /** From Sunday to Monday the week number goes up by one, or restarts at
      week 1 when the new week's Thursday falls in the next year. */
  lemma IsoWeekNextWeek(z: int)
    requires Weekday(z) == 6
    ensures IsoYear(z + 1) == IsoYear(z) ==> IsoWeek(z + 1) == IsoWeek(z) + 1
    ensures IsoYear(z + 1) != IsoYear(z) ==> IsoYear(z + 1) == IsoYear(z) + 1 && IsoWeek(z + 1) == 1
  {
    assert WeekThursday(z + 1) == WeekThursday(z) + 7 by { WeekdaySucc(z); }
    IsoWeekOfNextThursday(z, z + 1);
  }

  /** Days `z` and `z'` whose week Thursdays are seven days apart lie in
      consecutive ISO weeks. */
  lemma IsoWeekOfNextThursday(z: int, z': int)
    requires WeekThursday(z') == WeekThursday(z) + 7
    ensures IsoYear(z') == IsoYear(z) ==> IsoWeek(z') == IsoWeek(z) + 1
    ensures IsoYear(z') != IsoYear(z) ==> IsoYear(z') == IsoYear(z) + 1 && IsoWeek(z') == 1
  {
    var t := WeekThursday(z);
    var a, b := CivilFromDays(t), CivilFromDays(t + 7);
    var x, x' := DayOfYear(a), DayOfYear(b);
    assert (b.year == a.year ==> x' == x + 7) && (b.year != a.year ==> b.year == a.year + 1 && x' < 7) by {
      ThursdayStep(t);
    }
    assert 0 <= x' by { DayOfYearBounds(b); }
    assert IsoWeek(z) == x / 7 + 1 && IsoYear(z) == a.year by { IsoWeekOfThursday(z, a); }
    assert IsoWeek(z') == x' / 7 + 1 && IsoYear(z') == b.year by { IsoWeekOfThursday(z', b); }
    WeekNumberStep(b.year == a.year, x, x');
  }

  /** Week numbers of day-of-year counts `x` and `x'` a week apart. */
  lemma WeekNumberStep(sameYear: bool, x: int, x': int)
    requires sameYear ==> x' == x + 7
    requires !sameYear ==> 0 <= x' < 7
    ensures sameYear ==> x' / 7 + 1 == x / 7 + 1 + 1
    ensures !sameYear ==> x' / 7 + 1 == 1
  {
  }

  /** Seven days after day `t` is either seven days further into the same
      year, or one of the first seven days of the next year. */
  lemma ThursdayStep(t: int)
    ensures var a, b := CivilFromDays(t), CivilFromDays(t + 7);
      && (b.year == a.year ==> DayOfYear(b) == DayOfYear(a) + 7)
      && (b.year != a.year ==> b.year == a.year + 1 && DayOfYear(b) < 7)
  {
    WeekLater(CivilFromDays(t), CivilFromDays(t + 7));
  }

  /** A date `b` seven days after a date `a` is either seven days further
      into the same year, or one of the first seven days of the next year. */
  lemma WeekLater(a: Date, b: Date)
    requires ValidDate(a) && ValidDate(b)
    requires DaysFromCivil(b) == DaysFromCivil(a) + 7
    ensures b.year == a.year ==> DayOfYear(b) == DayOfYear(a) + 7
    ensures b.year != a.year ==> b.year == a.year + 1 && DayOfYear(b) < 7
  {
    InYear(a);
    InYear(b);
    YearOfWeekLater(DaysFromCivil(a), a.year, b.year);
  }

  /** If `t` lies in year `y` and `t + 7` in year `y'`, then `y'` is `y` or
      the next year, and in the latter case `t + 7` is in its first week. */
  lemma YearOfWeekLater(t: int, y: int, y': int)
    requires YearStart(y) <= t < YearStart(y + 1)
    requires YearStart(y') <= t + 7 < YearStart(y' + 1)
    ensures y' == y || (y' == y + 1 && t + 7 - YearStart(y') < 7)
  {
    if y' < y {
      YearStartMonotone(y', y);
    } else if y' > y + 1 {
      YearStartMonotone(y + 1, y');
    }
  }
}

=== FILE: discovery.dfy ===
/** File discovery in `process_data`: `os.walk` over a directory tree and a
    non-recursive `glob(join(root, '*.json'))` in every directory it visits. */
module Discovery {

  import opened Wrappers
  import opened Records

  /** A path, as its components from the root of the file system. */
  type Path = seq<Text>

  /** A directory entry; a directory lists its entries in the order the
      file system returns them. */
  datatype Entry = File(name: Text) | Dir(name: Text, entries: seq<Entry>)

  /** The glob pattern `*.json`: a name ending in ".json". A leading `*`
      does not match a leading dot, so hidden names never match. Directories
      are matched as well as files. */
  predicate Matches(name: Text) {
    |name| >= 5 && name[|name| - 5..] == ".json" && name[0] != '.'
  }

  /** The matching entries of directory `dir` whose entries are `es`. */
  function Glob(dir: Path, es: seq<Entry>): (r: seq<Path>)
    ensures forall p :: p in r ==> |p| == |dir| + 1 && p[..|dir|] == dir && Matches(p[|dir|])
    ensures forall i :: 0 <= i < |es| && Matches(es[i].name) ==> dir + [es[i].name] in r
  {
    if es == [] then []
    else (if Matches(es[0].name) then [dir + [es[0].name]] else []) + Glob(dir, es[1..])
  }

  /** The files `process_data` collects under directory `dir`, in order:
      `os.walk` visits a directory before its subdirectories (top-down) and
      globs each directory it visits. */
  function Walk(dir: Path, es: seq<Entry>): seq<Path>
    decreases es, 1
  {
    Glob(dir, es) + WalkSubdirs(dir, es)
  }

  /** The walk of each subdirectory of `dir`, in listing order. */
  function WalkSubdirs(dir: Path, es: seq<Entry>): seq<Path>
    decreases es, 0
  {
    if es == [] then []
    else SubdirWalk(dir, es[0]) + WalkSubdirs(dir, es[1..])
  }

  /** The walk of one entry of `dir`: nothing for a file. */
  function SubdirWalk(dir: Path, e: Entry): seq<Path>
    decreases e, 2
  {
    match e
    case Dir(name, children) => Walk(dir + [name], children)
    case File(_) => []
  }

  /** The first entry of `es` called `name`. */
  function Lookup(es: seq<Entry>, name: Text): (r: Option<Entry>)
    ensures r.Some? <==> exists i :: 0 <= i < |es| && es[i].name == name
    ensures r.Some? ==> r.value in es && r.value.name == name
  {
    if es == [] then None
    else if es[0].name == name then Some(es[0])
    else Lookup(es[1..], name)
  }

  /** `q`, relative to a directory with entries `es`, names a directory. */
  predicate IsDirPath(es: seq<Entry>, q: Path)
    decreases q
  {
    && |q| >= 1
    && match Lookup(es, q[0])
       case Some(Dir(_, children)) => |q| == 1 || IsDirPath(children, q[1..])
       case _ => false
  }

  /** `q` is the path, relative to a directory with entries `es`, of an
      entry somewhere below it. */
  predicate IsEntryPath(es: seq<Entry>, q: Path)
    decreases q
  {
    && |q| >= 1
    && exists i :: 0 <= i < |es| && es[i].name == q[0] &&
        (|q| == 1 || (es[i].Dir? && IsEntryPath(es[i].entries, q[1..])))
  }

  /** Names are unique within each directory, as in a real file system. */
  predicate UniqueNames(es: seq<Entry>) {
    && (forall i, j :: 0 <= i < j < |es| ==> es[i].name != es[j].name)
    && (forall i :: 0 <= i < |es| && es[i].Dir? ==> UniqueNames(es[i].entries))
  }

  predicate Distinct<T(==)>(s: seq<T>) {
    forall i, j :: 0 <= i < j < |s| ==> s[i] != s[j]
  }

  // ----- Every collected path is a matching entry -----

  /** Each collected path lies below `dir`, names an entry of the tree and
      matches the pattern. */
  lemma {:induction false} WalkSound(dir: Path, es: seq<Entry>, p: Path)
    requires p in Walk(dir, es)
    ensures |p| > |dir| && p[..|dir|] == dir
    ensures IsEntryPath(es, p[|dir|..]) && Matches(p[|p| - 1])
    decreases es, 1
  {
    if p in Glob(dir, es) {
      GlobSound(dir, es, p);
    } else {
      WalkSubdirsSound(dir, es, p);
    }
  }

  lemma {:induction false} GlobSound(dir: Path, es: seq<Entry>, p: Path)
    requires p in Glob(dir, es)
    ensures |p| == |dir| + 1 && p[..|dir|] == dir && IsEntryPath(es, p[|dir|..]) && Matches(p[|p| - 1])
  {
    if p == dir + [es[0].name] && Matches(es[0].name) {
      assert p[|dir|..] == [es[0].name];
    } else {
      GlobSound(dir, es[1..], p);
      EntryPathTail(es, p[|dir|..]);
    }
  }

  /** The subdirectory walks only collect paths at least two levels down. */
  lemma {:induction false} WalkSubdirsSound(dir: Path, es: seq<Entry>, p: Path)
    requires p in WalkSubdirs(dir, es)
    ensures |p| > |dir| + 1 && p[..|dir|] == dir
    ensures IsEntryPath(es, p[|dir|..]) && Matches(p[|p| - 1])
    decreases es, 0
  {
    if es[0].Dir? && p in Walk(dir + [es[0].name], es[0].entries) {
      var sub := dir + [es[0].name];
      WalkSound(sub, es[0].entries, p);
      assert p[..|sub|][..|dir|] == p[..|dir|];
      assert p[|dir|..][1..] == p[|sub|..];
      assert p[|dir|] == p[..|sub|][|dir|] == es[0].name;
    } else {
      WalkSubdirsSound(dir, es[1..], p);
      EntryPathTail(es, p[|dir|..]);
    }
  }

  /** An entry path among all but the first entry is an entry path. */
  lemma EntryPathTail(es: seq<Entry>, q: Path)
    requires es != [] && IsEntryPath(es[1..], q)
    ensures IsEntryPath(es, q)
  {
    var i :| 0 <= i < |es[1..]| && es[1..][i].name == q[0] &&
      (|q| == 1 || (es[1..][i].Dir? && IsEntryPath(es[1..][i].entries, q[1..])));
    assert es[i + 1] == es[1..][i];
  }

  // ----- Every matching entry is collected -----

  /** Every matching entry anywhere below `dir` is collected. */
  lemma {:induction false} WalkComplete(dir: Path, es: seq<Entry>, q: Path)
    requires IsEntryPath(es, q) && Matches(q[|q| - 1])
    ensures dir + q in Walk(dir, es)
    decreases q
  {
    var i :| 0 <= i < |es| && es[i].name == q[0] &&
      (|q| == 1 || (es[i].Dir? && IsEntryPath(es[i].entries, q[1..])));
    if |q| == 1 {
      assert q == [es[i].name];
    } else {
      var sub := dir + [es[i].name];
      WalkComplete(sub, es[i].entries, q[1..]);
      assert sub + q[1..] == dir + q;
      WalkSubdirsHas(dir, es, i, dir + q);
    }
  }

  /** The walk of the i-th entry, when it is a directory, is part of the
      subdirectory walks. */
  lemma {:induction false} WalkSubdirsHas(dir: Path, es: seq<Entry>, i: int, p: Path)
    requires 0 <= i < |es| && es[i].Dir? && p in Walk(dir + [es[i].name], es[i].entries)
    ensures p in WalkSubdirs(dir, es)
  {
    if i > 0 {
      assert es[1..][i - 1] == es[i];
      WalkSubdirsHas(dir, es[1..], i - 1, p);
    }
  }

  /** Nothing is collected, so the count is 0 and no handler runs, exactly
      when no entry of the tree matches. */
  lemma WalkEmpty(dir: Path, es: seq<Entry>)
    ensures Walk(dir, es) == [] <==> forall q :: IsEntryPath(es, q) ==> !Matches(q[|q| - 1])
  {
    forall q | IsEntryPath(es, q) && Matches(q[|q| - 1])
      ensures dir + q in Walk(dir, es)
    {
      WalkComplete(dir, es, q);
    }
    if Walk(dir, es) != [] {
      WalkSound(dir, es, Walk(dir, es)[0]);
    }
  }

  // ----- No path is collected twice -----

  /** With unique names per directory, each file is collected exactly once. */
  lemma {:induction false} WalkDistinct(dir: Path, es: seq<Entry>)
    requires UniqueNames(es)
    ensures Distinct(Walk(dir, es))
    decreases es, 1
  {
    GlobDistinct(dir, es);
    WalkSubdirsDistinct(dir, es);
    forall p | p in WalkSubdirs(dir, es)
      ensures |p| > |dir| + 1
    {
      WalkSubdirsSound(dir, es, p);
    }
    DistinctAppend(Glob(dir, es), WalkSubdirs(dir, es));
  }

  lemma {:induction false} GlobDistinct(dir: Path, es: seq<Entry>)
    requires forall i, j :: 0 <= i < j < |es| ==> es[i].name != es[j].name
    ensures Distinct(Glob(dir, es))
  {
    if es != [] {
      var rest := es[1..];
      assert forall i, j :: 0 <= i < j < |rest| ==> rest[i].name != rest[j].name by {
        forall i, j | 0 <= i < j < |rest| ensures rest[i].name != rest[j].name {
          assert rest[i] == es[i + 1] && rest[j] == es[j + 1];
        }
      }
      GlobDistinct(dir, rest);
      if Matches(es[0].name) {
        var p := dir + [es[0].name];
        forall x | x in Glob(dir, rest)
          ensures x != p
        {
          var k := NameOfCollected(dir, rest, x);
          assert rest[k] == es[k + 1];
          assert p[|dir|] == es[0].name;
        }
        DistinctAppend([p], Glob(dir, rest));
      }
    }
  }

  /** A collected path below `dir` continues with the name of one of
      `dir`'s entries. */
  lemma NameOfCollected(dir: Path, es: seq<Entry>, p: Path) returns (k: int)
    requires p in Glob(dir, es) || p in WalkSubdirs(dir, es)
    ensures |p| > |dir| && 0 <= k < |es| && es[k].name == p[|dir|]
  {
    if p in Glob(dir, es) {
      GlobSound(dir, es, p);
    } else {
      WalkSubdirsSound(dir, es, p);
    }
    var q := p[|dir|..];
    k :| 0 <= k < |es| && es[k].name == q[0] &&
      (|q| == 1 || (es[k].Dir? && IsEntryPath(es[k].entries, q[1..])));
  }

  lemma {:induction false} WalkSubdirsDistinct(dir: Path, es: seq<Entry>)
    requires UniqueNames(es)
    ensures Distinct(WalkSubdirs(dir, es))
    decreases es, 0
  {
    if es != [] {
      var rest := es[1..];
      assert UniqueNames(rest) by {
        forall i, j | 0 <= i < j < |rest| ensures rest[i].name != rest[j].name {
          assert rest[i] == es[i + 1] && rest[j] == es[j + 1];
        }
        forall i | 0 <= i < |rest| && rest[i].Dir? ensures UniqueNames(rest[i].entries) {
          assert rest[i] == es[i + 1];
        }
      }
      WalkSubdirsDistinct(dir, rest);
      if es[0].Dir? {
        var sub := dir + [es[0].name];
        var head := Walk(sub, es[0].entries);
        WalkDistinct(sub, es[0].entries);
        forall p | p in head
          ensures |p| > |dir| && p[|dir|] == es[0].name
        {
          WalkSound(sub, es[0].entries, p);
          assert p[|dir|] == p[..|sub|][|dir|];
        }
        forall p | p in WalkSubdirs(dir, rest)
          ensures |p| > |dir| && p[|dir|] != es[0].name
        {
          var k := NameOfCollected(dir, rest, p);
          assert rest[k] == es[k + 1];
        }
        DistinctAppend(head, WalkSubdirs(dir, rest));
      }
    }
  }

  /** Two duplicate-free sequences with no common element concatenate to a
      duplicate-free sequence. */
  lemma DistinctAppend<T>(a: seq<T>, b: seq<T>)
    requires Distinct(a) && Distinct(b)
    requires forall x :: x in a ==> x !in b
    ensures Distinct(a + b)
  {
    forall i, j | 0 <= i < j < |a + b|
      ensures (a + b)[i] != (a + b)[j]
    {
      if i < |a| && j >= |a| {
        assert (a + b)[i] in a && (a + b)[j] == b[j - |a|];
      }
    }
  }
}

=== FILE: driver.dfy ===
/** `process_data`: collect the JSON files under a directory, then hand
    them to a file handler one at a time, committing after each. */
module Driver {

  import opened Wrappers
  import opened Records
  import opened Discovery
  import opened SongFile
  import opened LogFile

  /** A file handler: the inserts it issues for the file at a path, or the
      exception it raises. */
  type Handler = Path -> Result<seq<Write>, EtlError>

  /** Reading the file at path `p` of the tree `es` under `root`:
      `read_json` of a path that names a directory raises, anything else
      reads as `read(p)`. */
  function ReadFile<T>(root: Path, es: seq<Entry>, read: Path -> seq<T>, p: Path): Result<seq<T>, EtlError> {
    if |p| > |root| && p[..|root|] == root && IsDirPath(es, p[|root|..]) then Failure(IsADirectory)
    else Success(read(p))
  }

  /** `process_song_file` on the files of the tree `es` under `root`,
      whose contents are given by `read`. */
  function SongHandler(root: Path, es: seq<Entry>, read: Path -> seq<SongRecord>): Handler {
    p => match ReadFile(root, es, read, p)
         case Success(records) => ProcessSongFile(records)
         case Failure(err) => Failure(err)
  }

  /** `process_log_file` on the files of the tree `es` under `root`,
      whose contents are given by `read`, looking songs up in `catalog`. */
  function LogHandler(catalog: Catalog, root: Path, es: seq<Entry>, read: Path -> seq<LogEvent>): Handler {
    p => match ReadFile(root, es, read, p)
         case Success(events) => ProcessLogFile(catalog, events)
         case Failure(err) => Failure(err)
  }

  /** A collected path that names a directory fails either handler, so a
      run over a tree with a directory called `*.json` stops there; any
      other path is handled as the file's records. */
  lemma HandlersOnPath(catalog: Catalog, root: Path, es: seq<Entry>,
                       readSongs: Path -> seq<SongRecord>, readLog: Path -> seq<LogEvent>, q: Path)
    ensures IsDirPath(es, q) ==>
      && SongHandler(root, es, readSongs)(root + q) == Failure(IsADirectory)
      && LogHandler(catalog, root, es, readLog)(root + q) == Failure(IsADirectory)
    ensures !IsDirPath(es, q) ==>
      && SongHandler(root, es, readSongs)(root + q) == ProcessSongFile(readSongs(root + q))
      && LogHandler(catalog, root, es, readLog)(root + q) == ProcessLogFile(catalog, readLog(root + q))
  {
    var p := root + q;
    assert p[..|root|] == root && p[|root|..] == q;
  }

  /** One handled file: its position in the progress count ("i/n files
      processed"), its path and the inserts committed for it. */
  datatype Step = Step(index: nat, path: Path, writes: seq<Write>)

  /** A run ends when every file is handled, or at the first file whose
      handler raises: the exception leaves `process_data` and that file's
      inserts are never committed. */
  datatype Outcome = Completed | Crashed(path: Path, error: EtlError)

  /** What a run did: the file count it announced, the files it handled,
      everything it committed, and how it ended. */
  datatype Run = Run(total: nat, steps: seq<Step>, committed: seq<Write>, outcome: Outcome)

  /** The inserts of the handled files, committed one file after another. */
  function Committed(steps: seq<Step>): seq<Write> {
    if steps == [] then [] else Committed(steps[..|steps| - 1]) + steps[|steps| - 1].writes
  }

  /** `process_data` over the directory `root` whose entries are `es`. */
  method ProcessData(root: Path, es: seq<Entry>, handler: Handler) returns (run: Run)
    ensures run.total == |Walk(root, es)|
    ensures |run.steps| <= run.total
    ensures forall i :: 0 <= i < |run.steps| ==>
      && run.steps[i].index == i + 1
      && run.steps[i].path == Walk(root, es)[i]
      && handler(Walk(root, es)[i]) == Success(run.steps[i].writes)
    ensures run.committed == Committed(run.steps)
    ensures run.outcome == Completed <==> |run.steps| == run.total
    ensures run.outcome.Crashed? ==>
      && run.outcome.path == Walk(root, es)[|run.steps|]
      && handler(run.outcome.path) == Failure(run.outcome.error)
  {
    var files := Walk(root, es);
    run := HandleFiles(files, handler);
  }

  /** The loop of `process_data` over the collected files, numbered from 1. */
  method HandleFiles(files: seq<Path>, handler: Handler) returns (run: Run)
    ensures run.total == |files|
    ensures |run.steps| <= run.total
    ensures forall i :: 0 <= i < |run.steps| ==>
      && run.steps[i].index == i + 1
      && run.steps[i].path == files[i]
      && handler(files[i]) == Success(run.steps[i].writes)
    ensures run.committed == Committed(run.steps)
    ensures run.outcome == Completed <==> |run.steps| == run.total
    ensures run.outcome.Crashed? ==>
      && run.outcome.path == files[|run.steps|]
      && handler(run.outcome.path) == Failure(run.outcome.error)
  {
    var n := |files|;
    var steps: seq<Step> := [];
    var committed: seq<Write> := [];
    var i := 0;
    while i < n
      invariant 0 <= i <= n && |steps| == i
      invariant forall k :: 0 <= k < i ==>
        steps[k].index == k + 1 && steps[k].path == files[k] && handler(files[k]) == Success(steps[k].writes)
      invariant committed == Committed(steps)
    {
      match handler(files[i]) {
        case Failure(err) =>
          return Run(n, steps, committed, Crashed(files[i], err));
        case Success(writes) =>
          var step := Step(i + 1, files[i], writes);
          assert (steps + [step])[..i] == steps;
          steps := steps + [step];
          committed := committed + writes;
      }
      i := i + 1;
    }
    run := Run(n, steps, committed, Completed);
  }
}

=== FILE: logfile.dfy ===
/** `process_log_file`: one activity log file becomes rows of the `time`,
    `users` and `songplays` tables. */
module LogFile {

  import opened Wrappers
  import opened TimeDim
  import opened Records
  import opened Seqs

  /** The catalogue query: the `(song_id, artist_id)` rows of catalogue songs
      with a given title, artist name and duration, in the order the
      database returns them. */
  type Catalog = (Text, Text, Float) -> seq<(Text, Text)>

  /** Only song plays (`page == "NextSong"`) feed the tables; logins, page
      views and the like are dropped. */
  predicate IsPlay(e: LogEvent) {
    e.page == "NextSong"
  }

  /** The song plays of a log, in log order. */
  function Plays(events: seq<LogEvent>): (r: seq<LogEvent>)
    ensures |r| <= |events|
    ensures forall e :: e in r <==> e in events && IsPlay(e)
  {
    if events == [] then []
    else (if IsPlay(events[0]) then [events[0]] else []) + Plays(events[1..])
  }

  /** The `users` row of a play. */
  function UserOf(e: LogEvent): UserRow {
    UserRow(e.userId, e.firstName, e.lastName, e.gender, e.level)
  }

  /** The song and artist ids of a play: those of the first catalogue row
      matching its title, artist and length, or NULL for both when there is
      none. */
  function ResolveIds(catalog: Catalog, e: LogEvent): (ids: (Option<Text>, Option<Text>))
    ensures ids.0.Some? <==> ids.1.Some?
    ensures ids.0.Some? <==> catalog(e.song, e.artist, e.length) != []
    ensures ids.0.Some? ==> (ids.0.value, ids.1.value) == catalog(e.song, e.artist, e.length)[0]
  {
    var hits := catalog(e.song, e.artist, e.length);
    if |hits| > 0 then (Some(hits[0].0), Some(hits[0].1)) else (None, None)
  }

  /** The `songplays` row of a play. */
  function SongplayOf(catalog: Catalog, e: LogEvent): SongplayRow {
    var ids := ResolveIds(catalog, e);
    SongplayRow(e.ts, e.userId, e.level, ids.0, ids.1, e.sessionId, e.location, e.userAgent)
  }

  /** The `time` row of a play. */
  function TimeRowOfPlay(e: LogEvent): TimeRow {
    TimeRowOf(e.ts)
  }

  /** The `songplays` rows of the plays, in order. This is `Map` of
      `SongplayOf(catalog, _)`, written out because a closure over
      `catalog` makes every proof about the rows much more expensive. */
  function SongplaysOf(catalog: Catalog, plays: seq<LogEvent>): (r: seq<SongplayRow>)
    ensures |r| == |plays|
    ensures forall i :: 0 <= i < |plays| ==> r[i] == SongplayOf(catalog, plays[i])
  {
    if plays == [] then [] else [SongplayOf(catalog, plays[0])] + SongplaysOf(catalog, plays[1..])
  }

  lemma SongplaysSingle(catalog: Catalog, e: LogEvent)
    ensures SongplaysOf(catalog, [e]) == [SongplayOf(catalog, e)]
  {
  }

  lemma {:induction false} SongplaysAppend(catalog: Catalog, a: seq<LogEvent>, b: seq<LogEvent>)
    ensures SongplaysOf(catalog, a + b) == SongplaysOf(catalog, a) + SongplaysOf(catalog, b)
  {
    if a == [] {
      assert a + b == b;
    } else {
      assert (a + b)[1..] == a[1..] + b;
      SongplaysAppend(catalog, a[1..], b);
    }
  }

  /** The three column-wise results of a log file. */
  datatype LogOutput = LogOutput(times: seq<TimeRow>, users: seq<UserRow>, songplays: seq<SongplayRow>)

  /** Every play's timestamp can be converted. */
  predicate AllInRange(plays: seq<LogEvent>) {
    forall i :: 0 <= i < |plays| ==> InPandasRange(plays[i].ts)
  }

  /** The rows a log file yields: one `time`, one `users` and one `songplays`
      row per play. The timestamp column is converted as a whole before
      anything is written, so one timestamp out of pandas' range fails the
      file. This is the transform of the rows of a frame that has its
      columns; the file without records, whose frame has none, is handled
      by `ProcessLogFile`. */
  function TransformLog(catalog: Catalog, events: seq<LogEvent>): (r: Result<LogOutput, EtlError>)
    ensures r.Success? <==> forall e :: e in events && IsPlay(e) ==> InPandasRange(e.ts)
    ensures r.Failure? ==> r.error == OutOfBoundsDatetime
    ensures r.Success? ==>
      && |r.value.times| == |Plays(events)|
      && |r.value.users| == |Plays(events)|
      && |r.value.songplays| == |Plays(events)|
  {
    TransformPlays(catalog, Plays(events))
  }

  /** The rows of the filtered plays, column by column. */
  function TransformPlays(catalog: Catalog, plays: seq<LogEvent>): (r: Result<LogOutput, EtlError>)
    ensures r.Success? <==> AllInRange(plays)
    ensures r.Failure? ==> r.error == OutOfBoundsDatetime
    ensures r.Success? ==>
      && |r.value.times| == |plays| && |r.value.users| == |plays| && |r.value.songplays| == |plays|
  {
    if AllInRange(plays) then
      Success(LogOutput(Map(TimeRowOfPlay, plays), Map(UserOf, plays), SongplaysOf(catalog, plays)))
    else
      Failure(OutOfBoundsDatetime)
  }

  /** The inserts of a log file, table by table in the order the function
      issues them: all `time` rows, then all `users` rows, then all
      `songplays` rows. */
  function LogWrites(o: LogOutput): (w: seq<Write>)
    ensures |w| == |o.times| + |o.users| + |o.songplays|
    ensures forall i :: 0 <= i < |o.times| ==> w[i] == TimeInsert(o.times[i])
    ensures forall i :: 0 <= i < |o.users| ==> w[|o.times| + i] == UserInsert(o.users[i])
    ensures forall i :: 0 <= i < |o.songplays| ==>
      w[|o.times| + |o.users| + i] == SongplayInsert(o.songplays[i])
  {
    Map(t => TimeInsert(t), o.times) + Map(u => UserInsert(u), o.users) + Map(p => SongplayInsert(p), o.songplays)
  }

  /** `w` is `n` `time` inserts, then `n` `users` inserts, then `n`
      `songplays` inserts. */
  predicate TableBlocks(w: seq<Write>, n: int) {
    && |w| == 3 * n
    && (forall i :: 0 <= i < n ==> w[i].TimeInsert?)
    && (forall i :: n <= i < 2 * n ==> w[i].UserInsert?)
    && (forall i :: 2 * n <= i < 3 * n ==> w[i].SongplayInsert?)
  }

  /** `process_log_file`: the inserts one log file issues, or the exception
      it raises before issuing any. A file without records reads as a frame
      without columns, so selecting `page` raises. */
  function ProcessLogFile(catalog: Catalog, events: seq<LogEvent>): (r: Result<seq<Write>, EtlError>)
    ensures r.Failure? <==> events == [] || exists e :: e in events && IsPlay(e) && !InPandasRange(e.ts)
    ensures events == [] ==> r == Failure(EmptyFile)
    ensures events != [] && r.Failure? ==> r.error == OutOfBoundsDatetime
    ensures r.Success? ==> TableBlocks(r.value, |Plays(events)|)
  {
    if events == [] then Failure(EmptyFile)
    else match TransformLog(catalog, events)
    case Success(o) =>
      LogWritesBlocks(o, |Plays(events)|);
      Success(LogWrites(o))
    case Failure(err) => Failure(err)
  }

  lemma LogWritesBlocks(o: LogOutput, n: int)
    requires |o.times| == n && |o.users| == n && |o.songplays| == n
    ensures TableBlocks(LogWrites(o), n)
  {
    var w := LogWrites(o);
    assert forall i :: n <= i < 2 * n ==> w[i] == w[|o.times| + (i - n)];
    assert forall i :: 2 * n <= i < 3 * n ==> w[i] == w[|o.times| + |o.users| + (i - 2 * n)];
  }

  /** The i-th play's `time`, `users` and `songplays` inserts sit at
      positions i, n + i and 2n + i of the file's inserts. */
  lemma ProcessLogFileRows(catalog: Catalog, events: seq<LogEvent>, i: int)
    requires ProcessLogFile(catalog, events).Success?
    requires 0 <= i < |Plays(events)|
    ensures var w, n, e := ProcessLogFile(catalog, events).value, |Plays(events)|, Plays(events)[i];
      && w[i] == TimeInsert(TimeRowOfPlay(e))
      && w[n + i] == UserInsert(UserOf(e))
      && w[2 * n + i] == SongplayInsert(SongplayOf(catalog, e))
  {
    var plays := Plays(events);
    var o := TransformPlays(catalog, plays).value;
    var w, n, e := ProcessLogFile(catalog, events).value, |plays|, plays[i];
    assert w == LogWrites(o);
    assert w[i] == TimeInsert(TimeRowOfPlay(e)) by {
      TransformPlaysAt(catalog, plays, i);
      TimeInsertAt(o, i);
    }
    assert w[n + i] == UserInsert(UserOf(e)) by {
      TransformPlaysAt(catalog, plays, i);
      UserInsertAt(o, n, i);
    }
    assert w[2 * n + i] == SongplayInsert(SongplayOf(catalog, e)) by {
      TransformPlaysAt(catalog, plays, i);
      SongplayInsertAt(o, n, i);
    }
  }

  lemma TimeInsertAt(o: LogOutput, i: int)
    requires 0 <= i < |o.times|
    ensures LogWrites(o)[i] == TimeInsert(o.times[i])
  {
  }

  lemma UserInsertAt(o: LogOutput, n: int, i: int)
    requires |o.times| == n && 0 <= i < |o.users|
    ensures LogWrites(o)[n + i] == UserInsert(o.users[i])
  {
  }

  lemma SongplayInsertAt(o: LogOutput, n: int, i: int)
    requires |o.times| == n && |o.users| == n && 0 <= i < |o.songplays|
    ensures LogWrites(o)[2 * n + i] == SongplayInsert(o.songplays[i])
  {
    assert 2 * n + i == |o.times| + |o.users| + i;
  }

  /** The i-th row of each column comes from the i-th play. */
  lemma TransformPlaysAt(catalog: Catalog, plays: seq<LogEvent>, i: int)
    requires TransformPlays(catalog, plays).Success? && 0 <= i < |plays|
    ensures var o := TransformPlays(catalog, plays).value;
      && o.times[i] == TimeRowOfPlay(plays[i])
      && o.users[i] == UserOf(plays[i])
      && o.songplays[i] == SongplayOf(catalog, plays[i])
  {
  }

  // ----- Properties of the transform -----

  /** Filtering a concatenation filters each part. */
  lemma {:induction false} PlaysAppend(a: seq<LogEvent>, b: seq<LogEvent>)
    ensures Plays(a + b) == Plays(a) + Plays(b)
  {
    if a == [] {
      assert a + b == b;
    } else {
      assert (a + b)[1..] == a[1..] + b;
      PlaysAppend(a[1..], b);
    }
  }

  /** The filter keeps a log unchanged exactly when every record is a play. */
  lemma {:induction false} PlaysUnchanged(events: seq<LogEvent>)
    ensures Plays(events) == events <==> forall i :: 0 <= i < |events| ==> IsPlay(events[i])
  {
    if events != [] {
      PlaysUnchanged(events[1..]);
      if !IsPlay(events[0]) {
        assert |Plays(events)| <= |events[1..]|;
      }
    }
  }

  /** A single record: a play yields one row of each table, anything else
      yields nothing. */
  lemma TransformLogSingle(catalog: Catalog, e: LogEvent)
    ensures IsPlay(e) && InPandasRange(e.ts) ==>
      TransformLog(catalog, [e]) == Success(LogOutput([TimeRowOf(e.ts)], [UserOf(e)], [SongplayOf(catalog, e)]))
    ensures IsPlay(e) && !InPandasRange(e.ts) ==> TransformLog(catalog, [e]) == Failure(OutOfBoundsDatetime)
    ensures !IsPlay(e) ==> TransformLog(catalog, [e]) == Success(LogOutput([], [], []))
  {
    assert Plays([e]) == (if IsPlay(e) then [e] else []) + Plays([]);
    if IsPlay(e) {
      MapSingle(TimeRowOfPlay, e);
      MapSingle(UserOf, e);
      SongplaysSingle(catalog, e);
    } else {
      assert Plays([e]) == [];
      assert TransformLog(catalog, [e]) == TransformPlays(catalog, []);
      TransformPlaysEmpty(catalog);
    }
  }

  /** No plays, no rows. */
  lemma TransformPlaysEmpty(catalog: Catalog)
    ensures TransformPlays(catalog, []) == Success(LogOutput([], [], []))
  {
    assert AllInRange([]);
  }

  /** The transform of a concatenation is the concatenation of the
      transforms, column by column: rows come out in log order, with
      nothing merged or dropped; and it fails exactly when a part fails. */
  lemma TransformLogAppend(catalog: Catalog, a: seq<LogEvent>, b: seq<LogEvent>)
    ensures var ra, rb, r := TransformLog(catalog, a), TransformLog(catalog, b), TransformLog(catalog, a + b);
      && (r.Success? <==> ra.Success? && rb.Success?)
      && (r.Success? ==>
            && r.value.times == ra.value.times + rb.value.times
            && r.value.users == ra.value.users + rb.value.users
            && r.value.songplays == ra.value.songplays + rb.value.songplays)
  {
    PlaysAppend(a, b);
    var pa, pb := Plays(a), Plays(b);
    MapAppend(TimeRowOfPlay, pa, pb);
    MapAppend(UserOf, pa, pb);
    SongplaysAppend(catalog, pa, pb);
  }

  /** A record that is not a play can be removed without changing anything. */
  lemma NonPlayIgnored(catalog: Catalog, a: seq<LogEvent>, e: LogEvent, b: seq<LogEvent>)
    requires !IsPlay(e)
    ensures TransformLog(catalog, a + [e] + b) == TransformLog(catalog, a + b)
  {
    PlaysAppend(a + [e], b);
    PlaysAppend(a, [e]);
    PlaysAppend(a, b);
    assert Plays([e]) == [] + Plays([]);
    assert Plays(a + [e] + b) == Plays(a + b);
  }

  /** The i-th rows of the three tables come from the same play: the
      songplay keeps the raw millisecond timestamp, the time row holds its
      conversion, and user id and level agree with the user row. */
  lemma RowsAgree(catalog: Catalog, events: seq<LogEvent>, i: int)
    requires TransformLog(catalog, events).Success?
    requires 0 <= i < |Plays(events)|
    ensures var o := TransformLog(catalog, events).value;
      && o.times[i].startTime == ToDateTime(o.songplays[i].ts)
      && EpochMillis(o.times[i].startTime) == o.songplays[i].ts
      && o.users[i].userId == o.songplays[i].userId
      && o.users[i].level == o.songplays[i].level
  {
  }

  /** The `users` row keeps exactly the five user columns of a play: two
      plays give the same row if and only if they agree on all five. */
  lemma UserOfColumns(e: LogEvent, e': LogEvent)
    ensures UserOf(e) == UserOf(e') <==>
      && e.userId == e'.userId && e.firstName == e'.firstName && e.lastName == e'.lastName
      && e.gender == e'.gender && e.level == e'.level
  {
  }

  /** The `songplays` row of a play is determined by its timestamp, user,
      level, session, location and user agent, and by the ids the catalogue
      gives it, and by nothing else: two plays give the same row if and
      only if they agree on these. */
  lemma SongplayOfColumns(catalog: Catalog, e: LogEvent, e': LogEvent)
    ensures SongplayOf(catalog, e) == SongplayOf(catalog, e') <==>
      && e.ts == e'.ts && e.userId == e'.userId && e.level == e'.level
      && e.sessionId == e'.sessionId && e.location == e'.location && e.userAgent == e'.userAgent
      && ResolveIds(catalog, e) == ResolveIds(catalog, e')
  {
  }

  /** The lookup key is exactly title, artist name and length: plays that
      agree on them get the same ids. */
  lemma SameKeySameIds(catalog: Catalog, e: LogEvent, e': LogEvent)
    requires e.song == e'.song && e.artist == e'.artist && e.length == e'.length
    ensures ResolveIds(catalog, e) == ResolveIds(catalog, e')
  {
  }
}

=== FILE: records.dfy ===
/** The records the ETL reads (one JSON object per line of a song or log
    file) and the rows it writes to the star schema. */
module Records {

  import opened Wrappers
  import opened TimeDim

  /** Text as decoded from JSON. */
  type Text = string

  /** A JSON floating-point number (a song's length, a location's latitude).
      The ETL only copies these and passes them to the database as lookup
      keys, so they are kept as their 64-bit pattern and compared by
      equality. */
  datatype Float = Float(bits: bv64)

  /** One line of an activity log file, restricted to the fields the log
      transform reads. */
  datatype LogEvent = LogEvent(
    artist: Text,
    firstName: Text,
    gender: Text,
    lastName: Text,
    length: Float,
    level: Text,
    location: Text,
    page: Text,
    sessionId: int,
    song: Text,
    ts: int,            // milliseconds since 1970-01-01T00:00:00 UTC
    userAgent: Text,
    userId: Text)

  /** One line of a song file of the song catalogue. */
  datatype SongRecord = SongRecord(
    numSongs: int,
    artistId: Text,
    artistLatitude: Float,
    artistLongitude: Float,
    artistLocation: Text,
    artistName: Text,
    songId: Text,
    title: Text,
    duration: Float,
    year: int)

  /** A row of the `songs` dimension table. */
  datatype SongRow = SongRow(songId: Text, title: Text, artistId: Text, year: int, duration: Float)

  /** A row of the `artists` dimension table. */
  datatype ArtistRow = ArtistRow(artistId: Text, name: Text, location: Text, latitude: Float, longitude: Float)

  /** A row of the `users` dimension table. */
  datatype UserRow = UserRow(userId: Text, firstName: Text, lastName: Text, gender: Text, level: Text)

  /** A row of the `songplays` fact table. `ts` is the log's raw millisecond
      count; the two ids are NULL when the catalogue has no matching song. */
  datatype SongplayRow = SongplayRow(
    ts: int,
    userId: Text,
    level: Text,
    songId: Option<Text>,
    artistId: Option<Text>,
    sessionId: int,
    location: Text,
    userAgent: Text)

  /** One `INSERT` the ETL issues, in the order it issues them. What the
      database does with a duplicate key is up to the statement's SQL and is
      not part of this model. */
  datatype Write =
    | SongInsert(song: SongRow)
    | ArtistInsert(artist: ArtistRow)
    | TimeInsert(time: TimeRow)
    | UserInsert(user: UserRow)
    | SongplayInsert(songplay: SongplayRow)

  /** Exceptions a file handler raises that are not database errors, and so
      are not caught by the handler's `except psycopg2.Error` blocks. */
  datatype EtlError =
    | EmptyFile              // no records: the frame has no columns, and selecting one raises KeyError
    | OutOfBoundsDatetime    // a `ts` outside pandas' nanosecond range
    | IsADirectory           // the collected path names a directory, which cannot be read
}

=== FILE: seqs.dfy ===
/** Element-wise maps over sequences. */
module Seqs {

  /** `f` applied to every element of `s`, in order. */
  function Map<A, B>(f: A -> B, s: seq<A>): (r: seq<B>)
    ensures |r| == |s|
    ensures forall i :: 0 <= i < |s| ==> r[i] == f(s[i])
  {
    if s == [] then [] else [f(s[0])] + Map(f, s[1..])
  }

  /** Mapping distributes over concatenation. */
  lemma {:induction false} MapAppend<A, B>(f: A -> B, a: seq<A>, b: seq<A>)
    ensures Map(f, a + b) == Map(f, a) + Map(f, b)
  {
    if a == [] {
      assert a + b == b;
    } else {
      assert (a + b)[1..] == a[1..] + b;
      MapAppend(f, a[1..], b);
    }
  }

  /** Mapping a one-element sequence. */
  lemma MapSingle<A, B>(f: A -> B, x: A)
    ensures Map(f, [x]) == [f(x)]
  {
  }
}

=== FILE: songfile.dfy ===
/** `process_song_file`: one song file of the catalogue becomes a `songs` row
    and an `artists` row. */
module SongFile {

  import opened Wrappers
  import opened Records

  /** The `songs` columns of a song record. */
  function SongOf(r: SongRecord): SongRow {
    SongRow(r.songId, r.title, r.artistId, r.year, r.duration)
  }

  /** The `artists` columns of a song record. */
  function ArtistOf(r: SongRecord): ArtistRow {
    ArtistRow(r.artistId, r.artistName, r.artistLocation, r.artistLatitude, r.artistLongitude)
  }

  /** `process_song_file`: the song row, then the artist row, both taken from
      the file's first record; an empty file raises before any insert. */
  function ProcessSongFile(records: seq<SongRecord>): (r: Result<seq<Write>, EtlError>)
    ensures r.Failure? <==> records == []
    ensures r.Failure? ==> r.error == EmptyFile
    ensures r.Success? ==>
      && |r.value| == 2
      && r.value[0].SongInsert? && r.value[1].ArtistInsert?
      && r.value[0].song.artistId == r.value[1].artist.artistId
  {
    if |records| == 0 then Failure(EmptyFile)
    else Success([SongInsert(SongOf(records[0])), ArtistInsert(ArtistOf(records[0]))])
  }

  /** Only the first record matters: files that start alike give the same
      inserts, whatever follows. */
  lemma FirstRecordOnly(records: seq<SongRecord>, more: seq<SongRecord>)
    requires records != []
    ensures ProcessSongFile(records + more) == ProcessSongFile(records[..1])
  {
  }

  /** The song row and the artist row together keep every field of the
      record except `num_songs`: joining them back on the artist id rebuilds
      the record. */
  function Rejoin(song: SongRow, artist: ArtistRow, numSongs: int): (r: Option<SongRecord>)
    ensures r.Some? <==> song.artistId == artist.artistId
  {
    if song.artistId != artist.artistId then None
    else Some(SongRecord(numSongs, artist.artistId, artist.latitude, artist.longitude, artist.location,
                         artist.name, song.songId, song.title, song.duration, song.year))
  }

  /** The two projections split a record without loss: a song row, an
      artist row and a song count rejoin to a record exactly when they are
      that record's projections and count. */
  lemma SongArtistSplit(s: SongRow, a: ArtistRow, n: int, rec: SongRecord)
    ensures Rejoin(s, a, n) == Some(rec) <==> s == SongOf(rec) && a == ArtistOf(rec) && n == rec.numSongs
  {
  }

  /** The inserts of a non-empty file rejoin to its first record. */
  lemma ProcessSongFileRoundTrip(records: seq<SongRecord>)
    requires records != []
    ensures var w := ProcessSongFile(records).value;
      Rejoin(w[0].song, w[1].artist, records[0].numSongs) == Some(records[0])
  {
  }
}

=== FILE: timedim.dfy ===
/** The `time` dimension: what `pd.to_datetime(ts, unit='ms')` and the
    `Series.dt` accessors make of one millisecond timestamp. */
module TimeDim {

  import opened Arithmetic
  import opened Calendar

  const MillisPerSecond: int := 1000
  const MillisPerMinute: int := 60000
  const MillisPerHour: int := 3600000
  const MillisPerDay: int := 86400000

  /** pandas keeps a timestamp as a signed 64-bit count of nanoseconds, with
      the lowest value reserved for "not a time"; a millisecond count whose
      nanosecond value does not fit is rejected. This is the largest
      magnitude that fits: 9223372036854 ms * 10^6 < 2^63 - 1. The int64
      value -2^63 itself is read as "not a time" rather than rejected; that
      case is not part of this model. */
  const MaxMillis: int := 9223372036854

  /** `ts` can be converted to a pandas timestamp. */
  predicate InPandasRange(ts: int) {
    -MaxMillis <= ts <= MaxMillis
  }

  /** A UTC date and time of day, to the millisecond. */
  datatype DateTime = DateTime(date: Date, hour: int, minute: int, second: int, millis: int)

  predicate ValidDateTime(t: DateTime) {
    && ValidDate(t.date)
    && 0 <= t.hour < 24 && 0 <= t.minute < 60
    && 0 <= t.second < 60 && 0 <= t.millis < 1000
  }

  /** Milliseconds from 1970-01-01T00:00:00 UTC to `t`. */
  function EpochMillis(t: DateTime): int {
    DaysFromCivil(t.date) * MillisPerDay
      + t.hour * MillisPerHour + t.minute * MillisPerMinute + t.second * MillisPerSecond + t.millis
  }

  /** The UTC date and time `ts` milliseconds after the epoch. Times before
      the epoch count back from it, so the day is the floor of `ts` over a
      day's milliseconds, as pandas computes it. */
  function ToDateTime(ts: int): (t: DateTime)
    ensures ValidDateTime(t)
    ensures EpochMillis(t) == ts
  {
    var ms := ts % MillisPerDay;
    var rh := ms % MillisPerHour;
    var rm := rh % MillisPerMinute;
    DateTime(CivilFromDays(ts / MillisPerDay), ms / MillisPerHour, rh / MillisPerMinute,
             rm / MillisPerSecond, rm % MillisPerSecond)
  }

  /** Converting a valid date and time to milliseconds and back gives it
      back: `ToDateTime` and `EpochMillis` are inverse bijections. */
  lemma ToDateTimeInverse(t: DateTime)
    requires ValidDateTime(t)
    ensures ToDateTime(EpochMillis(t)) == t
  {
    var ts := EpochMillis(t);
    var rm := t.second * MillisPerSecond + t.millis;
    var rh := t.minute * MillisPerMinute + rm;
    var ms := t.hour * MillisPerHour + rh;
    DivModUnique(ts, MillisPerDay, DaysFromCivil(t.date), ms);
    DivModUnique(ms, MillisPerHour, t.hour, rh);
    DivModUnique(rh, MillisPerMinute, t.minute, rm);
    DivModUnique(rm, MillisPerSecond, t.second, t.millis);
    DaysFromCivilInverse(t.date);
  }

  /** A row of the `time` dimension table, in column order. */
  datatype TimeRow = TimeRow(
    startTime: DateTime,
    hour: int,
    day: int,
    week: int,
    month: int,
    year: int,
    weekday: int)

  /** The `time` row of timestamp `ts`: the converted start time and its
      hour, day of month, ISO 8601 week, month, year and day of the week
      (Monday = 0). */
  function TimeRowOf(ts: int): (r: TimeRow)
    ensures 0 <= r.hour <= 23 && 1 <= r.day <= 31 && 1 <= r.month <= 12
    ensures 1 <= r.week <= 53 && 0 <= r.weekday <= 6
    ensures ValidDateTime(r.startTime) && EpochMillis(r.startTime) == ts
    ensures var d := Date(r.year, r.month, r.day);
      && ValidDate(d)
      && DaysFromCivil(d) * MillisPerDay + r.hour * MillisPerHour <= ts
      && ts < DaysFromCivil(d) * MillisPerDay + r.hour * MillisPerHour + MillisPerHour
      && r.weekday == Weekday(DaysFromCivil(d))
      && r.week == IsoWeek(DaysFromCivil(d))
  {
    var t := ToDateTime(ts);
    TimeRow(t, t.hour, t.date.day, IsoWeek(ts / MillisPerDay), t.date.month, t.date.year,
            Weekday(ts / MillisPerDay))
  }

  /** Conversely, a valid date and hour whose hour-long interval holds `ts`
      are the ones in `ts`'s row: the row is the only consistent one. */
  lemma TimeRowOfInterval(ts: int, d: Date, hour: int)
    requires ValidDate(d) && 0 <= hour < 24
    requires DaysFromCivil(d) * MillisPerDay + hour * MillisPerHour <= ts
    requires ts < DaysFromCivil(d) * MillisPerDay + hour * MillisPerHour + MillisPerHour
    ensures var r := TimeRowOf(ts);
      Date(r.year, r.month, r.day) == d && r.hour == hour
  {
    var r := TimeRowOf(ts);
    var d' := Date(r.year, r.month, r.day);
    var rest := ts - DaysFromCivil(d) * MillisPerDay - hour * MillisPerHour;
    DivModUnique(ts, MillisPerDay, DaysFromCivil(d), hour * MillisPerHour + rest);
    DivModUnique(ts, MillisPerDay, DaysFromCivil(d'), ts - DaysFromCivil(d') * MillisPerDay);
    DaysFromCivilInverse(d);
    DaysFromCivilInverse(d');
    DivModUnique(ts % MillisPerDay, MillisPerHour, hour, rest);
  }

  /** The row of a timestamp, read off the date and time it converts to. */
  lemma TimeRowOfDateTime(ts: int, t: DateTime)
    requires ValidDateTime(t) && EpochMillis(t) == ts
    ensures TimeRowOf(ts)
         == TimeRow(t, t.hour, t.date.day, IsoWeek(DaysFromCivil(t.date)), t.date.month, t.date.year,
                    Weekday(DaysFromCivil(t.date)))
  {
    ToDateTimeInverse(t);
  }

  /** A log timestamp from November 2018: Friday 2018-11-02 01:25:34.796
      UTC, in ISO week 44. */
  lemma TimeRowExample(ts: int)
    requires ts == 1541121934796
    ensures TimeRowOf(ts) == TimeRow(DateTime(Date(2018, 11, 2), 1, 25, 34, 796), 1, 2, 44, 11, 2018, 4)
  {
    var d := Date(2018, 11, 2);
    ExampleDay(d, Date(2018, 11, 1));
    TimeRowOfDateTime(ts, DateTime(d, 1, 25, 34, 796));
  }

  /** 2018-11-02 is day 17837, a Friday in ISO week 44. */
  lemma ExampleDay(d: Date, thursday: Date)
    requires d == Date(2018, 11, 2) && thursday == Date(2018, 11, 1)
    ensures DaysFromCivil(d) == 17837
    ensures Weekday(DaysFromCivil(d)) == 4 && IsoWeek(DaysFromCivil(d)) == 44
  {
    assert MarchYearStart(2018) == 737059;
    assert MarchYearStart(2017) == 736694;
    IsoWeekOfThursday(DaysFromCivil(d), thursday);
  }
}

=== FILE: wrappers.dfy ===
/** Optional values (SQL NULL / Python `None`) and results of steps that can
    raise. */
module Wrappers {

  /** A value that may be missing; `None` is SQL NULL. */
  datatype Option<+T> = None | Some(value: T)

  /** The outcome of a step that either returns a value or raises. */
  datatype Result<+T, +E> = Success(value: T) | Failure(error: E)
}
